=== FILE: README.md ===
# MPMCQueue — a sequential Dafny model of the ticket/turn ring buffer

This project models the bounded multi-producer/multi-consumer queue of
`MPMCQueue.h`. It covers the ring of slots, the two ticket counters `head`
and `tail`, and the per-slot turn protocol behind `emplace`, `try_emplace`,
`push`, `try_push`, `pop` and `try_pop`. It also models construction and
teardown, including the slot destructor that destroys an item exactly when
the slot's turn is odd.

The model is a functional state machine that runs one operation at a time.
A queue is an immutable record `Queue(capacity, padding, head, tail, slots)`.
Each slot is `Slot(turn, val)`, and `val: Option<T>` stands for the raw
storage cell. Every operation is a pure function from one queue value to the
next.

- `MPMCQueue.Valid` is the protocol invariant. Tickets in `[tail, head)` own
  a written slot at turn `2*Turn(t)+1`. Tickets in `[head, tail+capacity)`
  own an empty slot at turn `2*Turn(t)`. The padding slots stay untouched.
- `MPMCQueue.Contents` maps a queue onto the FIFO of items held by tickets
  `tail .. head-1`.
- Every operation is proved to preserve the invariant and to refine the
  FIFO enqueue or dequeue.
- `Fifo` is an independent bounded-FIFO specification. `MPMCQueue.Replay`
  runs any sequence of non-blocking requests, and `ReplayRefinesFifo` proves
  that the run agrees with the specification.

Modules:

- `Wrappers`: `Option` and `Result`.
- `Ring`: `idx`/`turn` arithmetic and its slot and generation facts.
- `Slots`: the slot cell, its construct/move/destroy/release steps and its
  destructor.
- `Fifo`: the reference specification.
- `MPMCQueue`: the queue itself.
- `Scenarios`: the single-threaded usage patterns from the test program.

Two facts about the header shape the model:

- The constructor allocates `capacity + 2*kPadding` slots (MPMCQueue.h:43),
  and ticket `i` uses entry `i % capacity + kPadding` (MPMCQueue.h:133-135).
  The first and last `kPadding` entries are never used.
- `try_emplace` advances `head` only through its compare-and-swap
  (MPMCQueue.h:82), so a failed attempt leaves `head` unchanged.
  `try_pop` does the same with `tail` (MPMCQueue.h:116).

## Model

| member | source | states |
|---|---|---|
| `Ring.Idx` | MPMCQueue.h:133-135 | every ticket's slot index lies in `[kPadding, kPadding + capacity)`, so it addresses a ring slot of a `capacity + 2*kPadding` array and never a padding slot (when that size wraps in `size_t` the array is smaller; see Findings) |
| `Ring.TurnBounds` | MPMCQueue.h:136 | the generation `g` of ticket `i` satisfies `g*capacity <= i < (g+1)*capacity` |
| `Ring.NextGeneration` | MPMCQueue.h:133-136 | ticket `i + capacity` uses the same slot as ticket `i`, one generation later; this is why the reader's release value `2*turn+2` is the next writer's turn |
| `Ring.IdxInjective` | MPMCQueue.h:133-135 | tickets fewer than `capacity` apart never share a slot, so each live ticket has a slot of its own |
| `Ring.SameSlot` | MPMCQueue.h:133-136 | tickets that share a slot are whole generations apart, and the later one has a strictly higher generation: each slot serves its generations in order |
| `Ring.TicketFor` | MPMCQueue.h:133-135 | in any window of `capacity` consecutive tickets, every ring slot is the slot of some ticket, and this names it |
| `Ring.TicketForUnique` | MPMCQueue.h:133-135 | no other ticket of the window uses that slot; with `Ring.TicketFor`, each ring slot belongs to exactly one ticket of the window |
| `Slots.Slot.Construct` | MPMCQueue.h:147-149 | placement-constructs the item in the slot's storage; it may only be applied to an unconstructed cell, and leaves the turn alone |
| `Slots.Slot.Destroy` | MPMCQueue.h:150 | runs the item's destructor; it may only be applied to a cell that holds an item, which it leaves unconstructed, and leaves the turn alone |
| `Slots.Slot.Move` | MPMCQueue.h:151 | yields the stored item for the reader to move out; it may only be applied to a cell that holds an item |
| `Slots.WriterStep` | MPMCQueue.h:67-72 | a consistent slot at the writer's turn `2*g` is empty, so `construct` is allowed; construct then store `2*g+1` leaves the slot consistent, holding exactly the new item, one turn on |
| `Slots.ReaderStep` | MPMCQueue.h:103-108 | a consistent slot at the reader's turn `2*g+1` holds an item, which `move` returns; destroy then store `2*g+2` leaves it consistent and empty, one turn on |
| `Slots.Slot.Finalize` | MPMCQueue.h:141-145 | the slot destructor destroys one item when the turn is odd and nothing otherwise; the item destroyed is the one stored, so the destructor destroys exactly what the storage holds |
| `Slots.ConstructedClear` | MPMCQueue.h:150 | destroying the item of one slot removes exactly that item from the items constructed across the array |
| `MPMCQueue.NewAsWritten` | MPMCQueue.h:42-50 | the constructor as written: it allocates `(capacity + 2*kPadding) mod 2^64` slots either way and fails exactly when `capacity < 1`; when the size does not wrap, a successful construction gives the same queue as `MPMCQueue.New` |
| `MPMCQueue.InvalidCapacityLeaks` | MPMCQueue.h:42-47 | with capacity 0 the constructor throws, and the `2*kPadding` slots it allocated are owned by nothing |
| `MPMCQueue.AllocationSizeWraps` | MPMCQueue.h:42-47 | capacity `2^64 - 1` (the argument `-1`) is accepted with a one-slot array, ticket 0's index 1 is past its end, and the queue breaks the invariant from the start; capacity `2^64 - 2` is accepted with no slot at all |
| `MPMCQueue.New` | MPMCQueue.h:42-47 | the corrected constructor (see Findings): construction fails exactly when `capacity < 1` or `capacity + 2*kPadding` does not fit in `size_t`, and then allocates nothing; otherwise the queue is valid and empty, with `head = tail = 0` and every slot at turn 0 with no item |
| `MPMCQueue.WriterTurn` | MPMCQueue.h:78-81 | the slot of ticket `head` is at turn `2*turn(head)` exactly when `head - tail < capacity`, and it is then empty |
| `MPMCQueue.ReaderTurn` | MPMCQueue.h:112-115 | the slot of ticket `tail` is at turn `2*turn(tail)+1` exactly when `head > tail`, and it then holds an item |
| `MPMCQueue.EmplaceFrame` | MPMCQueue.h:67-72 | the producer's write changes only the slot of its own ticket: every other ticket of the window `[tail, tail + capacity)` keeps its slot as it was |
| `MPMCQueue.EmplaceStep` | MPMCQueue.h:71-72 | constructing the item and publishing turn `2*turn+1` keeps the protocol invariant and appends the item to the FIFO |
| `MPMCQueue.PopFrame` | MPMCQueue.h:103-108 | the consumer's read changes only the slot of its own ticket: every later ticket of the window keeps its slot as it was |
| `MPMCQueue.PopStep` | MPMCQueue.h:106-108 | moving the item out, destroying it and publishing turn `2*turn+2` keeps the invariant and removes the FIFO's oldest item |
| `MPMCQueue.Emplace` | MPMCQueue.h:64-73 | with room in the queue: the invariant holds afterwards, the item is appended, `head` grows by one, and the slot of the old `head` goes from empty to holding the item while its turn advances by exactly one; no other slot changes |
| `MPMCQueue.TryEmplace` | MPMCQueue.h:75-95 | succeeds exactly when `head - tail < capacity`; on success it equals the blocking emplace and appends the item; on failure the queue is unchanged |
| `MPMCQueue.Push` | MPMCQueue.h:97 | the blocking push is the blocking emplace of the value: it keeps the invariant and appends the value |
| `MPMCQueue.TryPush` | MPMCQueue.h:99 | the non-blocking push is the try-emplace of the value: it succeeds exactly when the queue has room and then appends the value; otherwise the queue is unchanged |
| `MPMCQueue.Pop` | MPMCQueue.h:101-109 | with an item in the queue: it returns the FIFO's oldest item and the invariant holds afterwards; `tail` grows by one and that slot's item is destroyed while its turn advances by exactly one; no other slot changes |
| `MPMCQueue.TryPop` | MPMCQueue.h:111-130 | succeeds exactly when `head > tail`, and then yields the oldest item as the blocking pop does; on failure the queue and the destination are unchanged |
| `MPMCQueue.SlotsConsistent` | MPMCQueue.h:141-145 | under the invariant, a slot's turn is odd exactly when its storage holds a constructed item |
| `MPMCQueue.ConstructedAreContents` | MPMCQueue.h:141-145 | the items constructed across all slots are, as a multiset, exactly the FIFO's contents |
| `MPMCQueue.LiveItems` | MPMCQueue.h:101-108 | the number of constructed items equals `head - tail` and never exceeds the capacity |
| `MPMCQueue.Teardown` | MPMCQueue.h:58 | `delete[]` runs the slot destructors from the last slot down to the first, so teardown destroys the constructed items in the reverse of their slot order; these are exactly the items still in the FIFO, each once: `head - tail` items in all |
| `MPMCQueue.Apply` | MPMCQueue.h:75-130 | one try-emplace or try-pop request keeps the invariant, leaves capacity and padding alone, and never moves a slot's turn back |
| `MPMCQueue.ApplyRefinesStep` | MPMCQueue.h:75-130 | one request agrees with one step of the bounded FIFO specification on the success flag, the destination and the contents |
| `MPMCQueue.Replay` | MPMCQueue.h:75-130 | any sequence of try-emplace and try-pop requests keeps the invariant, and no slot's turn ever decreases |
| `MPMCQueue.ReplayRefinesFifo` | MPMCQueue.h:75-130 | replaying requests on the queue agrees with the bounded FIFO specification on every success flag, on the destination and on the final contents |
| `Scenarios.CapacityOne` | src/MPMCQueueTest.cpp:96-107 | with capacity 1: `try_push(1)` succeeds, `try_push(2)` fails, `try_pop` yields 1, and a second `try_pop` fails and leaves the destination at 1 |
| `Scenarios.SingleSlot` | src/MPMCQueueTest.cpp:98-105 | the same boundary behaviour from any empty queue of capacity 1 |
| `Scenarios.LiveObjects` | src/MPMCQueueTest.cpp:75-94 | with capacity 11, ten emplaces leave 10 live items; after a pop into a local there are still 10 (9 queued plus the local); after a second pop and an emplace there are still 10; at the end of the scope the local is destroyed first, then the queue's 9 items, and no live item remains |
| `Scenarios.CountedItems` | src/MPMCQueueTest.cpp:78-92 | the same live-object counts from any empty queue of capacity 11: 10, 10, 10, and then the after-refill count less the items teardown destroys and the local is 0 |

## Left out

- Atomics, memory ordering, busy-wait spinning and the compare-and-swap retry path (MPMCQueue.h:82, 88-92) are left out. The model runs one operation at a time. In it the compare-and-swap always succeeds, and "counter unchanged" is the only way a non-blocking operation fails.
- MPMCQueue.Emplace and MPMCQueue.Pop require room, or an item, respectively. Run alone, the source's spin would never end without it, so the non-terminating case is not modelled.
- Cache-line layout is left out: `kCacheLineSize`, `alignas`, `padding_` and the alignment `assert`s. `kPadding` is the queue field `padding`, which can be any positive number. In the header it is always 1, because `alignas(kCacheLineSize)` makes a slot at least 128 bytes.
- MPMCQueue.InvalidCapacityLeaks: requires `2*padding < 2^64`, so that the allocation size does not wrap. That covers the header's `kPadding` of 1.
- Raw storage is left out: placement new, `aligned_storage` and `reinterpret_cast`. Slot storage is `Option<T>`.
- The type-trait `static_assert`s are left out.
- The `bad_alloc` path is left out, because allocation failure is not modelled.
- The variadic constructor arguments of `emplace` are represented by the value they construct.
- The difference between copying and moving is not modelled. The header's `push(T&&)` accepts only rvalues; the newer test also pushes lvalues.
- Counters are unbounded naturals, so 64-bit wrap-around is not modelled. The source does not handle it either.
- `size()` and `empty()` are not in the header. `MPMCQueue.Size` is only a helper for `head - tail`.
- The multithreaded fuzz tests (src/MPMCQueueTest.cpp:155-190, MPMCQueueTest.cpp:100-135) are left out because they rely on threads. So is the example program, which also prints to the console. Their conservation-of-sum property is concurrent.

## Findings

| source | as written | input that shows it | evidently intended | confidence | as-written member | corrected member |
|---|---|---|---|---|---|---|
| MPMCQueue.h:42-47 | the member initialiser `slots_(new Slot[capacity + 2 * kPadding])` allocates the slot array before the body throws `invalid_argument` for `capacity < 1`. `slots_` is a raw pointer and the destructor does not run for a throwing constructor, so the array is never freed | `capacity = 0`: `2*kPadding` slots are allocated and then lost | reject the capacity before allocating (or own the array so that unwinding frees it), so a failed construction leaks nothing | high, not executed | `MPMCQueue.NewAsWritten` (leak shown by `MPMCQueue.InvalidCapacityLeaks`) | `MPMCQueue.New` (proves `NoLeak`) |
| MPMCQueue.h:42-47 | the slot count `capacity + 2 * kPadding` is computed in `size_t`, so it wraps for capacities near `SIZE_MAX`. Only `capacity < 1` is rejected, so a negative argument is accepted. The array is then smaller than the ring, and `idx` indexes past its end | `capacity = -1`, which arrives as `2^64 - 1`, with `kPadding = 1`: one slot is allocated, and the first `emplace` writes slot 1 | reject any capacity whose slot count does not fit in `size_t` | high, not executed | `MPMCQueue.NewAsWritten` (wrap shown by `MPMCQueue.AllocationSizeWraps`) | `MPMCQueue.New` (fails for those capacities and proves `Valid` on success) |

=== FILE: fifo.dfy ===
/**
 The sequential specification the queue is measured against: a FIFO that
 holds at most `capacity` items, driven by non-blocking enqueue and dequeue
 requests. A dequeue writes the oldest item to the caller's destination; a
 failed dequeue leaves the destination as it was.
 */
module Fifo {

  datatype Op<T> = Enqueue(x: T) | Dequeue

  /** The items held, the caller's destination, and whether each request succeeded. */
  datatype Run<T> = Run(items: seq<T>, dest: T, results: seq<bool>)

  function Step<T>(items: seq<T>, capacity: nat, dest: T, op: Op<T>): (r: Run<T>)
    ensures |r.results| == 1
    ensures |items| <= capacity ==> |r.items| <= capacity
    ensures r.results[0] ==> (if op.Enqueue? then |r.items| == |items| + 1 else [r.dest] + r.items == items)
    ensures !r.results[0] ==> r.items == items && r.dest == dest
  {
    match op
    case Enqueue(x) =>
      if |items| < capacity then Run(items + [x], dest, [true]) else Run(items, dest, [false])
    case Dequeue =>
      if |items| > 0 then Run(items[1..], items[0], [true]) else Run(items, dest, [false])
  }

  /** Apply the requests in order, threading the items and the destination through. */
  function Execute<T>(items: seq<T>, capacity: nat, dest: T, ops: seq<Op<T>>): (r: Run<T>)
    ensures |r.results| == |ops|
    ensures |items| <= capacity ==> |r.items| <= capacity
    decreases |ops|
  {
    if |ops| == 0 then Run(items, dest, [])
    else
      var s := Step(items, capacity, dest, ops[0]);
      var rest := Execute(s.items, capacity, s.dest, ops[1..]);
      Run(rest.items, rest.dest, s.results + rest.results)
  }
}

=== FILE: queue.dfy ===
/**
 The bounded multi-producer/multi-consumer queue, run one operation at a time.
 Producers take tickets from `head`, consumers from `tail`; ticket `t` is
 served by slot `Idx(t)` in generation `Turn(t)`. A producer may write when
 the slot's turn is `2 * Turn(t)` and then publishes `2 * Turn(t) + 1`; a
 consumer may read when the turn is `2 * Turn(t) + 1` and then publishes
 `2 * Turn(t) + 2`.
 */
module MPMCQueue {
  import opened Wrappers
  import opened Slots
  import opened Ring
  import Fifo

  /** Number of unused slots before and after the ring; always positive. */
  type Padding = p: nat | 1 <= p witness 1

  datatype Queue<T> = Queue(capacity: nat, padding: Padding, head: nat, tail: nat, slots: seq<Slot<T>>)

  /** One more than the largest `size_t` value; sizes and capacities are 64-bit. */
  const SizeModulus: nat := 0x1_0000_0000_0000_0000

  /** A `size_t` value, such as the capacity argument; a negative argument arrives wrapped. */
  type SizeT = n: nat | n < 0x1_0000_0000_0000_0000

  /** Why construction failed: the requested capacity cannot be served. */
  datatype Error = InvalidCapacity

  /**
   The outcome of constructing a queue, together with the number of slots the
   construction obtained from the allocator.
   */
  datatype Construction<T> = Construction(result: Result<Queue<T>, Error>, slotsAllocated: nat)

  datatype Pushed<T> = Pushed(ok: bool, queue: Queue<T>)
  datatype Popped<T> = Popped(queue: Queue<T>, item: T)
  datatype TryPopped<T> = TryPopped(ok: bool, queue: Queue<T>, dest: T)
  datatype Replayed<T> = Replayed(queue: Queue<T>, dest: T, results: seq<bool>)

  /** The number of items in flight, `head - tail`. */
  function Size<T>(q: Queue<T>): int {
    q.head - q.tail
  }

  /**
   The protocol invariant. Tickets in the live window `[tail, head)` own a slot
   whose item is written and awaits its reader; tickets in `[head, tail + capacity)`
   own a slot that is empty and awaits its writer; the padding slots are never
   touched.
   */
  ghost predicate Valid<T>(q: Queue<T>) {
    && q.capacity >= 1
    && |q.slots| == q.capacity + 2 * q.padding
    && q.tail <= q.head <= q.tail + q.capacity
    && (forall t: nat | q.tail <= t < q.head ::
          && q.slots[Idx(t, q.capacity, q.padding)].turn == 2 * Turn(t, q.capacity) + 1
          && q.slots[Idx(t, q.capacity, q.padding)].val.Some?)
    && (forall t: nat | q.head <= t < q.tail + q.capacity ::
          && q.slots[Idx(t, q.capacity, q.padding)].turn == 2 * Turn(t, q.capacity)
          && q.slots[Idx(t, q.capacity, q.padding)].val.None?)
    && (forall j | 0 <= j < |q.slots| && (j < q.padding || q.padding + q.capacity <= j) ::
          q.slots[j] == Slot(0, None))
  }

  /** The abstraction onto a FIFO: the items of tickets `tail, tail + 1, ..., head - 1`. */
  ghost function Contents<T>(q: Queue<T>): (items: seq<T>)
    requires Valid(q)
    ensures |items| == Size(q)
  {
    seq(q.head - q.tail, k requires 0 <= k < q.head - q.tail =>
      q.slots[Idx(q.tail + k, q.capacity, q.padding)].val.value)
  }

  /** Every slot allocated by a construction belongs to the queue it built. */
  predicate NoLeak<T>(c: Construction<T>) {
    if c.result.Success? then c.slotsAllocated == |c.result.value.slots| else c.slotsAllocated == 0
  }

  /**
   Construction as the constructor is written: the member initialisers
   allocate `capacity + 2 * padding` slots, a size computed in `size_t` and so
   taken modulo 2^64, before the body rejects a capacity below one; nothing
   frees the slots on that path.
   */
  function NewAsWritten<T>(capacity: SizeT, padding: Padding): (c: Construction<T>)
    ensures c.result.Failure? <==> capacity < 1
    ensures c.slotsAllocated == (capacity + 2 * padding) % SizeModulus
    ensures c.result.Success? && capacity + 2 * padding < SizeModulus ==>
              c.result == New<T>(capacity, padding).result
  {
    var slots := seq((capacity + 2 * padding) % SizeModulus, _ => Slot(0, None));
    if capacity < 1 then Construction(Failure(InvalidCapacity), |slots|)
    else Construction(Success(Queue(capacity, padding, 0, 0, slots)), |slots|)
  }

  /** A capacity of zero is rejected, yet the slots allocated for it are lost. */
  lemma InvalidCapacityLeaks<T>(padding: Padding)
    requires 2 * padding < SizeModulus
    ensures NewAsWritten<T>(0, padding).result == Failure(InvalidCapacity)
    ensures NewAsWritten<T>(0, padding).slotsAllocated == 2 * padding > 0
    ensures !NoLeak(NewAsWritten<T>(0, padding))
  {
  }

  /**
   A capacity of `-1`, which arrives as 2^64 - 1, is accepted, but the slot
   count wraps to 1: ticket 0 is then served by slot 1, past the end of the
   array, and the queue breaks the protocol invariant from the start.
   */
  lemma AllocationSizeWraps<T>()
    ensures var c := NewAsWritten<T>(SizeModulus - 1, 1);
            && c.result.Success?
            && |c.result.value.slots| == c.slotsAllocated == 1
            && Idx(0, c.result.value.capacity, c.result.value.padding) >= |c.result.value.slots|
            && !Valid(c.result.value)
    ensures NewAsWritten<T>(SizeModulus - 2, 1).result.Success?
    ensures NewAsWritten<T>(SizeModulus - 2, 1).slotsAllocated == 0
  {
  }

  /**
   Construction with the capacity checked before allocating: a capacity below
   one, or one whose slot count does not fit in `size_t`, fails without
   allocating; otherwise the queue starts empty, with both counters and every
   turn at zero.
   */
  function New<T>(capacity: SizeT, padding: Padding): (c: Construction<T>)
    ensures c.result.Failure? <==> capacity < 1 || capacity + 2 * padding >= SizeModulus
    ensures NoLeak(c)
    ensures c.slotsAllocated < SizeModulus
    ensures c.result.Success? ==>
      var q := c.result.value;
      && Valid(q)
      && q.capacity == capacity && q.padding == padding
      && q.head == 0 && q.tail == 0
      && Contents(q) == []
      && forall j | 0 <= j < |q.slots| :: q.slots[j] == Slot(0, None)
  {
    if capacity < 1 || capacity + 2 * padding >= SizeModulus then Construction(Failure(InvalidCapacity), 0)
    else
      var q := Queue(capacity, padding, 0, 0, seq(capacity + 2 * padding, _ => Slot(0, None)));
      assert Valid(q) by {
        forall t: nat | 0 <= t < capacity
          ensures q.slots[Idx(t, capacity, padding)].turn == 2 * Turn(t, capacity)
        {
          DivModUnique(t, capacity, 0, t);
        }
      }
      Construction(Success(q), |q.slots|)
  }

  /** The slot of the next producer ticket awaits its writer exactly when the queue has room. */
  lemma WriterTurn<T>(q: Queue<T>)
    requires Valid(q)
    ensures q.slots[Idx(q.head, q.capacity, q.padding)].turn == 2 * Turn(q.head, q.capacity)
            <==> Size(q) < q.capacity
    ensures Size(q) < q.capacity ==> q.slots[Idx(q.head, q.capacity, q.padding)].val.None?
  {
    if q.head == q.tail + q.capacity {
      NextGeneration(q.tail, q.capacity, q.padding);
    }
  }

  /** The slot of the next consumer ticket awaits its reader exactly when the queue is not empty. */
  lemma ReaderTurn<T>(q: Queue<T>)
    requires Valid(q)
    ensures q.slots[Idx(q.tail, q.capacity, q.padding)].turn == 2 * Turn(q.tail, q.capacity) + 1
            <==> Size(q) > 0
    ensures Size(q) > 0 ==> q.slots[Idx(q.tail, q.capacity, q.padding)].val.Some?
  {
  }

  /** The producer's write keeps the invariant and appends the item to the FIFO. */
  lemma EmplaceStep<T>(q: Queue<T>, x: T, q': Queue<T>)
    requires Valid(q)
    requires Size(q) < q.capacity
    requires q' == q.(head := q.head + 1,
                      slots := q.slots[Idx(q.head, q.capacity, q.padding) :=
                                       Slot(2 * Turn(q.head, q.capacity) + 1, Some(x))])
    ensures Valid(q')
    ensures Contents(q') == Contents(q) + [x]
  {
    EmplaceValid(q, x, q');
    EmplaceFrame(q, x, q');
    var c, c' := Contents(q), Contents(q');
    forall k | 0 <= k < |c'|
      ensures c'[k] == (c + [x])[k]
    {
      if k < |c| {
        assert c'[k] == q'.slots[Idx(q.tail + k, q.capacity, q.padding)].val.value;
      }
    }
  }

  /** The producer's write keeps the invariant. */
  lemma EmplaceValid<T>(q: Queue<T>, x: T, q': Queue<T>)
    requires Valid(q)
    requires Size(q) < q.capacity
    requires q' == q.(head := q.head + 1,
                      slots := q.slots[Idx(q.head, q.capacity, q.padding) :=
                                       Slot(2 * Turn(q.head, q.capacity) + 1, Some(x))])
    ensures Valid(q')
  {
    EmplaceFrame(q, x, q');
  }

  /** The producer's write touches no slot of another ticket of the window `[tail, tail + capacity)`. */
  lemma EmplaceFrame<T>(q: Queue<T>, x: T, q': Queue<T>)
    requires Valid(q)
    requires Size(q) < q.capacity
    requires q' == q.(head := q.head + 1,
                      slots := q.slots[Idx(q.head, q.capacity, q.padding) :=
                                       Slot(2 * Turn(q.head, q.capacity) + 1, Some(x))])
    ensures forall t: nat | q.tail <= t < q.tail + q.capacity && t != q.head ::
              q'.slots[Idx(t, q.capacity, q.padding)] == q.slots[Idx(t, q.capacity, q.padding)]
  {
    var cap, pad, h := q.capacity, q.padding, q.head;
    forall t: nat | q.tail <= t < q.tail + cap && t != h
      ensures q'.slots[Idx(t, cap, pad)] == q.slots[Idx(t, cap, pad)]
    {
      if t < h {
        IdxInjective(t, h, cap, pad);
      } else {
        IdxInjective(h, t, cap, pad);
      }
    }
  }

  /** The consumer's read keeps the invariant and removes the oldest item of the FIFO. */
  lemma PopStep<T>(q: Queue<T>, q': Queue<T>)
    requires Valid(q)
    requires Size(q) > 0
    requires q' == q.(tail := q.tail + 1,
                      slots := q.slots[Idx(q.tail, q.capacity, q.padding) :=
                                       Slot(2 * Turn(q.tail, q.capacity) + 2, None)])
    ensures Valid(q')
    ensures [q.slots[Idx(q.tail, q.capacity, q.padding)].val.value] + Contents(q') == Contents(q)
  {
    PopValid(q, q');
    PopFrame(q, q');
    var c, c' := Contents(q), Contents(q');
    forall k | 0 <= k < |c|
      ensures c[k] == ([q.slots[Idx(q.tail, q.capacity, q.padding)].val.value] + c')[k]
    {
      if k > 0 {
        assert c'[k - 1] == q'.slots[Idx(q.tail + 1 + (k - 1), q.capacity, q.padding)].val.value;
      }
    }
  }

  /** The consumer's read keeps the invariant. */
  lemma PopValid<T>(q: Queue<T>, q': Queue<T>)
    requires Valid(q)
    requires Size(q) > 0
    requires q' == q.(tail := q.tail + 1,
                      slots := q.slots[Idx(q.tail, q.capacity, q.padding) :=
                                       Slot(2 * Turn(q.tail, q.capacity) + 2, None)])
    ensures Valid(q')
  {
    PopFrame(q, q');
    NextGeneration(q.tail, q.capacity, q.padding);
  }

  /** The consumer's read touches no slot of another ticket of the window `[tail, tail + capacity)`. */
  lemma PopFrame<T>(q: Queue<T>, q': Queue<T>)
    requires Valid(q)
    requires q' == q.(tail := q.tail + 1,
                      slots := q.slots[Idx(q.tail, q.capacity, q.padding) :=
                                       Slot(2 * Turn(q.tail, q.capacity) + 2, None)])
    ensures forall t: nat | q.tail < t < q.tail + q.capacity ::
              q'.slots[Idx(t, q.capacity, q.padding)] == q.slots[Idx(t, q.capacity, q.padding)]
  {
    var cap, pad, tl := q.capacity, q.padding, q.tail;
    forall t: nat | tl < t < tl + cap
      ensures q'.slots[Idx(t, cap, pad)] == q.slots[Idx(t, cap, pad)]
    {
      IdxInjective(tl, t, cap, pad);
    }
  }

  /**
   Blocking emplace: take ticket `head`, wait for the slot's writer turn,
   construct the item and publish the reader turn. Run alone, the wait ends
   only if the queue has room, which is therefore required.
   */
  function Emplace<T>(q: Queue<T>, x: T): (q': Queue<T>)
    requires Valid(q)
    requires Size(q) < q.capacity
    ensures Valid(q')
    ensures Contents(q') == Contents(q) + [x]
    ensures q'.head == q.head + 1 && q'.tail == q.tail
    ensures q'.capacity == q.capacity && q'.padding == q.padding
    ensures AdvancedOnce(q.slots, q'.slots, Idx(q.head, q.capacity, q.padding))
    ensures q.slots[Idx(q.head, q.capacity, q.padding)].val.None?
    ensures q'.slots[Idx(q.head, q.capacity, q.padding)].val == Some(x)
  {
    var ticket := q.head;
    var i := Idx(ticket, q.capacity, q.padding);
    var slot := q.slots[i];
    WriterTurn(q);
    assert slot.turn == 2 * Turn(ticket, q.capacity);
    var q' := q.(head := ticket + 1,
                 slots := q.slots[i := slot.Construct(x).Release(2 * Turn(ticket, q.capacity) + 1)]);
    EmplaceStep(q, x, q');
    q'
  }

  /**
   Non-blocking emplace: check the slot of the current head; if it awaits its
   writer, claim the ticket and write as the blocking path does, otherwise
   report the queue full and leave it untouched.
   */
  function TryEmplace<T>(q: Queue<T>, x: T): (r: Pushed<T>)
    requires Valid(q)
    ensures r.ok <==> Size(q) < q.capacity
    ensures r.ok ==> Valid(r.queue) && Contents(r.queue) == Contents(q) + [x]
    ensures r.ok ==> r.queue == Emplace(q, x)
    ensures !r.ok ==> r.queue == q
  {
    var head := q.head;
    var slot := q.slots[Idx(head, q.capacity, q.padding)];
    WriterTurn(q);
    if Turn(head, q.capacity) * 2 == slot.turn then
      // alone, the compare-and-swap of head from `head` to `head + 1` succeeds
      Pushed(true, Emplace(q, x))
    else
      // the reloaded head is still `head`, so the failure is reported
      Pushed(false, q)
  }

  /** Blocking push: an emplace of the given value. */
  function Push<T>(q: Queue<T>, v: T): (q': Queue<T>)
    requires Valid(q)
    requires Size(q) < q.capacity
    ensures Valid(q')
    ensures Contents(q') == Contents(q) + [v]
    ensures q' == Emplace(q, v)
  {
    Emplace(q, v)
  }

  /** Non-blocking push: a try-emplace of the given value. */
  function TryPush<T>(q: Queue<T>, v: T): (r: Pushed<T>)
    requires Valid(q)
    ensures r.ok <==> Size(q) < q.capacity
    ensures r.ok ==> Valid(r.queue) && Contents(r.queue) == Contents(q) + [v]
    ensures !r.ok ==> r.queue == q
    ensures r == TryEmplace(q, v)
  {
    TryEmplace(q, v)
  }

  /**
   Blocking pop: take ticket `tail`, wait for the slot's reader turn, move the
   item out, destroy the slot's copy and publish the next writer turn. Run
   alone, the wait ends only if the queue holds an item, which is therefore
   required.
   */
  function Pop<T>(q: Queue<T>): (r: Popped<T>)
    requires Valid(q)
    requires Size(q) > 0
    ensures Valid(r.queue)
    ensures [r.item] + Contents(r.queue) == Contents(q)
    ensures r.queue.tail == q.tail + 1 && r.queue.head == q.head
    ensures r.queue.capacity == q.capacity && r.queue.padding == q.padding
    ensures AdvancedOnce(q.slots, r.queue.slots, Idx(q.tail, q.capacity, q.padding))
    ensures q.slots[Idx(q.tail, q.capacity, q.padding)].val == Some(r.item)
    ensures r.queue.slots[Idx(q.tail, q.capacity, q.padding)].val.None?
  {
    var ticket := q.tail;
    var i := Idx(ticket, q.capacity, q.padding);
    var slot := q.slots[i];
    ReaderTurn(q);
    assert slot.turn == 2 * Turn(ticket, q.capacity) + 1;
    var v := slot.Move();
    var q' := q.(tail := ticket + 1,
                 slots := q.slots[i := slot.Destroy().Release(2 * Turn(ticket, q.capacity) + 2)]);
    PopStep(q, q');
    Popped(q', v)
  }

  /**
   Non-blocking pop: check the slot of the current tail; if it awaits its
   reader, claim the ticket and read as the blocking path does, otherwise
   report the queue empty, leaving it and the destination untouched.
   */
  function TryPop<T>(q: Queue<T>, dest: T): (r: TryPopped<T>)
    requires Valid(q)
    ensures r.ok <==> Size(q) > 0
    ensures r.ok ==> Valid(r.queue) && [r.dest] + Contents(r.queue) == Contents(q)
    ensures r.ok ==> Pop(q) == Popped(r.queue, r.dest)
    ensures !r.ok ==> r.queue == q && r.dest == dest
  {
    var tail := q.tail;
    var slot := q.slots[Idx(tail, q.capacity, q.padding)];
    ReaderTurn(q);
    if Turn(tail, q.capacity) * 2 + 1 == slot.turn then
      // alone, the compare-and-swap of tail from `tail` to `tail + 1` succeeds
      var p := Pop(q);
      TryPopped(true, p.queue, p.item)
    else
      // the reloaded tail is still `tail`, so the failure is reported
      TryPopped(false, q, dest)
  }

  /** Under the invariant, a slot's turn is odd exactly when it holds an item. */
  lemma SlotsConsistent<T>(q: Queue<T>)
    requires Valid(q)
    ensures forall j | 0 <= j < |q.slots| :: q.slots[j].Consistent()
  {
    forall j | q.padding <= j < q.padding + q.capacity
      ensures q.slots[j].Consistent()
    {
      var t := TicketFor(q.tail, j, q.capacity, q.padding);
    }
  }

  /** The items held by the slots are, as a multiset, the contents of the FIFO. */
  lemma {:induction false} ConstructedAreContents<T>(q: Queue<T>)
    requires Valid(q)
    ensures multiset(Constructed(q.slots)) == multiset(Contents(q))
    decreases Size(q)
  {
    if Size(q) == 0 {
      forall j | q.padding <= j < q.padding + q.capacity
        ensures q.slots[j].val.None?
      {
        var t := TicketFor(q.tail, j, q.capacity, q.padding);
      }
      ConstructedNone(q.slots, |q.slots|);
    } else {
      var r := Pop(q);
      ConstructedAreContents(r.queue);
      ConstructedClear(q.slots, r.queue.slots, Idx(q.tail, q.capacity, q.padding), |q.slots|);
      assert Contents(q) == [r.item] + Contents(r.queue);
    }
  }

  /** The number of constructed items is `head - tail`, and never above the capacity. */
  lemma LiveItems<T>(q: Queue<T>)
    requires Valid(q)
    ensures |Constructed(q.slots)| == Size(q) <= q.capacity
  {
    ConstructedAreContents(q);
    assert |multiset(Constructed(q.slots))| == |multiset(Contents(q))|;
  }

  /**
   Tearing the queue down deletes the slot array, which runs every slot's
   destructor from the last slot down to the first; each destroys the item
   of an odd-turn slot. The items destroyed are exactly those still in the
   FIFO, each once, in the reverse of their slot order.
   */
  method Teardown<T>(q: Queue<T>) returns (destroyed: seq<T>)
    requires Valid(q)
    ensures destroyed == Reverse(Constructed(q.slots))
    ensures multiset(destroyed) == multiset(Contents(q))
    ensures |destroyed| == Size(q)
  {
    SlotsConsistent(q);
    destroyed := [];
    var j := |q.slots|;
    while j > 0
      invariant 0 <= j <= |q.slots|
      invariant destroyed + Reverse(ConstructedUpTo(q.slots, j)) == Reverse(Constructed(q.slots))
    {
      ReverseSnoc(ConstructedUpTo(q.slots, j - 1), Held(q.slots[j - 1]));
      destroyed := destroyed + q.slots[j - 1].Finalize();
      j := j - 1;
    }
    ReversePermutes(Constructed(q.slots));
    ConstructedAreContents(q);
    LiveItems(q);
  }

  /**
   One non-blocking request: an enqueue is a try-emplace, a dequeue a try-pop
   into `dest`. The invariant is kept and no slot's turn goes back.
   */
  function Apply<T>(q: Queue<T>, dest: T, op: Fifo.Op<T>): (r: Replayed<T>)
    requires Valid(q)
    ensures Valid(r.queue)
    ensures r.queue.capacity == q.capacity && r.queue.padding == q.padding
    ensures |r.results| == 1
    ensures TurnsNotBehind(q.slots, r.queue.slots)
  {
    match op
    case Enqueue(x) =>
      var p := TryEmplace(q, x);
      Replayed(p.queue, dest, [p.ok])
    case Dequeue =>
      var p := TryPop(q, dest);
      Replayed(p.queue, p.dest, [p.ok])
  }

  /** One request has the same outcome on the queue as on the bounded FIFO holding its contents. */
  lemma ApplyRefinesStep<T>(q: Queue<T>, dest: T, op: Fifo.Op<T>)
    requires Valid(q)
    ensures var r := Apply(q, dest, op);
            var s := Fifo.Step(Contents(q), q.capacity, dest, op);
            && Contents(r.queue) == s.items
            && r.dest == s.dest
            && r.results == s.results
  {
    if op.Dequeue? && Size(q) > 0 {
      var p := TryPop(q, dest);
      assert Contents(q)[1..] == Contents(p.queue);
    }
  }

  /**
   Run a sequence of non-blocking requests against the queue, one at a time.
   The invariant holds throughout and no slot's turn ever goes back.
   */
  function Replay<T>(q: Queue<T>, dest: T, ops: seq<Fifo.Op<T>>): (r: Replayed<T>)
    requires Valid(q)
    ensures Valid(r.queue)
    ensures r.queue.capacity == q.capacity && r.queue.padding == q.padding
    ensures |r.results| == |ops|
    ensures TurnsNotBehind(q.slots, r.queue.slots)
    decreases |ops|
  {
    if |ops| == 0 then Replayed(q, dest, [])
    else
      var a := Apply(q, dest, ops[0]);
      var rest := Replay(a.queue, a.dest, ops[1..]);
      TurnsNotBehindTrans(q.slots, a.queue.slots, rest.queue.slots);
      Replayed(rest.queue, rest.dest, a.results + rest.results)
  }

  /**
   Refinement: replaying requests on the queue and executing them on the
   bounded FIFO specification, started from the queue's contents, agree on
   every success flag, on the final destination and on the final contents.
   */
  lemma {:induction false} ReplayRefinesFifo<T>(q: Queue<T>, dest: T, ops: seq<Fifo.Op<T>>)
    requires Valid(q)
    ensures var r := Replay(q, dest, ops);
            var s := Fifo.Execute(Contents(q), q.capacity, dest, ops);
            && Contents(r.queue) == s.items
            && r.dest == s.dest
            && r.results == s.results
    decreases |ops|
  {
    if |ops| > 0 {
      var a := Apply(q, dest, ops[0]);
      ApplyRefinesStep(q, dest, ops[0]);
      ReplayRefinesFifo(a.queue, a.dest, ops[1..]);
    }
  }
}

=== FILE: ring.dfy ===
/**
 Index arithmetic of the ring buffer: a ticket (a value of the head or tail
 counter) is mapped to a slot of the array and to the generation it serves
 in that slot. The slot array has `capacity + 2 * padding` entries; the first
 and last `padding` entries are never used and only keep the ring away from
 neighbouring allocations.
 */
module Ring {

  /** Slot index of ticket `i`: `i mod capacity`, shifted past the leading padding. */
  function Idx(i: nat, capacity: nat, padding: nat): (k: nat)
    requires capacity >= 1
    ensures padding <= k < padding + capacity
    ensures k < capacity + 2 * padding
  {
    i % capacity + padding
  }

  /** Generation of ticket `i`: how many tickets before it used the same slot. */
  function Turn(i: nat, capacity: nat): (g: nat)
    requires capacity >= 1
  {
    i / capacity
  }

  /** The generation `g` of ticket `i` is the one whose tickets `g * capacity ..` contain `i`. */
  lemma TurnBounds(i: nat, capacity: nat)
    requires capacity >= 1
    ensures Turn(i, capacity) * capacity <= i < Turn(i, capacity) * capacity + capacity
  {
  }

  /** A ticket is its generation times the capacity plus its offset in the ring. */
  lemma Decompose(i: nat, capacity: nat, padding: nat)
    requires capacity >= 1
    ensures i == Turn(i, capacity) * capacity + (Idx(i, capacity, padding) - padding)
  {
  }

  /** Quotient and remainder are unique: they are determined by any decomposition. */
  lemma DivModUnique(i: nat, capacity: nat, g: nat, r: nat)
    requires capacity >= 1
    requires r < capacity
    requires i == g * capacity + r
    ensures i / capacity == g
    ensures i % capacity == r
  {
    var g', r' := i / capacity, i % capacity;
    assert i == g' * capacity + r';
    if g' < g {
      MulMonotone(g' + 1, g, capacity);
      assert false;
    } else if g < g' {
      MulMonotone(g + 1, g', capacity);
      assert false;
    }
  }

  lemma MulMonotone(a: nat, b: nat, c: nat)
    requires a <= b
    ensures a * c <= b * c
  {
  }

  /** The ticket `capacity` steps later uses the same slot, one generation on. */
  lemma NextGeneration(i: nat, capacity: nat, padding: nat)
    requires capacity >= 1
    ensures Idx(i + capacity, capacity, padding) == Idx(i, capacity, padding)
    ensures Turn(i + capacity, capacity) == Turn(i, capacity) + 1
  {
    var g, r := i / capacity, i % capacity;
    assert i + capacity == (g + 1) * capacity + r;
    DivModUnique(i + capacity, capacity, g + 1, r);
  }

  /** Tickets that use the same slot are a whole number of generations apart. */
  lemma SameSlot(i: nat, j: nat, capacity: nat, padding: nat)
    requires capacity >= 1
    requires i <= j
    requires Idx(i, capacity, padding) == Idx(j, capacity, padding)
    ensures j - i == (Turn(j, capacity) - Turn(i, capacity)) * capacity
    ensures i < j ==> Turn(i, capacity) < Turn(j, capacity)
    ensures i < j ==> j - i >= capacity
  {
    Decompose(i, capacity, padding);
    Decompose(j, capacity, padding);
    var d := Turn(j, capacity) - Turn(i, capacity);
    assert j - i == d * capacity;
    if i < j {
      if d <= 0 {
        assert false;
      }
      MulMonotone(1, d, capacity);
    }
  }

  /** Fewer than `capacity` consecutive tickets never share a slot. */
  lemma IdxInjective(i: nat, j: nat, capacity: nat, padding: nat)
    requires capacity >= 1
    requires i < j < i + capacity
    ensures Idx(i, capacity, padding) != Idx(j, capacity, padding)
  {
    if Idx(i, capacity, padding) == Idx(j, capacity, padding) {
      SameSlot(i, j, capacity, padding);
      assert false;
    }
  }

  /**
   Every ring slot is used by exactly one ticket of any window of `capacity`
   consecutive tickets; this function names that ticket.
   */
  function TicketFor(w: nat, k: nat, capacity: nat, padding: nat): (t: nat)
    requires capacity >= 1
    requires padding <= k < padding + capacity
    ensures w <= t < w + capacity
    ensures Idx(t, capacity, padding) == k
  {
    var r := k - padding;
    var base := w - w % capacity;
    if r >= w % capacity then
      OffsetInGeneration(w, capacity, r);
      base + r
    else
      OffsetInGeneration(w + capacity, capacity, r);
      NextGeneration(w, capacity, padding);
      base + capacity + r
  }

  /** Within the generation of ticket `i`, offset `r` is the ticket `i - i mod capacity + r`. */
  lemma OffsetInGeneration(i: nat, capacity: nat, r: nat)
    requires capacity >= 1
    requires r < capacity
    ensures (i - i % capacity + r) % capacity == r
  {
    var g := i / capacity;
    assert i - i % capacity + r == g * capacity + r;
    DivModUnique(i - i % capacity + r, capacity, g, r);
  }

  /** The ticket `TicketFor` names is the only one of its window that uses slot `k`. */
  lemma TicketForUnique(w: nat, k: nat, capacity: nat, padding: nat, t': nat)
    requires capacity >= 1
    requires padding <= k < padding + capacity
    requires w <= t' < w + capacity
    requires Idx(t', capacity, padding) == k
    ensures t' == TicketFor(w, k, capacity, padding)
  {
    var t := TicketFor(w, k, capacity, padding);
    if t < t' {
      IdxInjective(t, t', capacity, padding);
    } else if t' < t {
      IdxInjective(t', t, capacity, padding);
    }
  }
}

=== FILE: scenarios.dfy ===
/**
 The single-threaded usage patterns of the queue, with their expected
 observations: the capacity-1 full/empty boundary and the live-object count
 of an element type whose instances are counted.
 */
module Scenarios {
  import opened Slots
  import opened MPMCQueue

  /**
   Capacity 1: a first try-push succeeds, a second fails on the full queue,
   a try-pop yields the first value, and a second try-pop fails on the empty
   queue without touching the destination.
   */
  method CapacityOne() returns (push1: bool, push2: bool, pop1: bool, got1: int, pop2: bool, got2: int)
    ensures push1 && !push2
    ensures pop1 && got1 == 1
    ensures !pop2 && got2 == 1
  {
    var c := New<int>(1, 1);
    push1, push2, pop1, got1, pop2, got2 := SingleSlot(c.result.value);
  }

  /** The capacity-1 boundary, from any empty queue of capacity 1. */
  method SingleSlot(q0: Queue<int>) returns (push1: bool, push2: bool, pop1: bool, got1: int, pop2: bool, got2: int)
    requires Valid(q0) && q0.capacity == 1 && Size(q0) == 0
    ensures push1 && !push2
    ensures pop1 && got1 == 1
    ensures !pop2 && got2 == 1
  {
    var q := q0;
    var t := 0;
    var a := TryPush(q, 1);
    push1, q := a.ok, a.queue;
    var b := TryPush(q, 2);
    push2, q := b.ok, b.queue;
    var r := TryPop(q, t);
    pop1, q, t := r.ok, r.queue, r.dest;
    got1 := t;
    var d := TryPop(q, t);
    pop2, q, t := d.ok, d.queue, d.dest;
    got2 := t;
  }

  /**
   Capacity 11 with counted items: ten emplaces leave ten live items; a pop
   into an already constructed local moves one item out and destroys the
   slot's copy; a second pop followed by an emplace leaves nine queued items
   plus the local; leaving the scope destroys the local and then the queue
   with every queued item.
   */
  method LiveObjects() returns (afterEmplaces: nat, afterPop: nat, afterRefill: nat, leftAfterTeardown: nat)
    ensures afterEmplaces == 10
    ensures afterPop == 10
    ensures afterRefill == 10
    ensures leftAfterTeardown == 0
  {
    var c := New<nat>(11, 1);
    afterEmplaces, afterPop, afterRefill, leftAfterTeardown := CountedItems(c.result.value);
  }

  /** The live-object counts of the capacity-11 pattern, from any empty queue of capacity 11. */
  method CountedItems(q0: Queue<nat>) returns (afterEmplaces: nat, afterPop: nat, afterRefill: nat, leftAfterTeardown: nat)
    requires Valid(q0) && q0.capacity == 11 && Size(q0) == 0
    ensures afterEmplaces == 10
    ensures afterPop == 10
    ensures afterRefill == 10
    ensures leftAfterTeardown == 0
  {
    var q := EmplaceCounting(q0, 0, 10);
    afterEmplaces := LiveCount(q);

    // the local destination is one more live object, whatever it holds: the `+ 1` below
    var local := 0;
    q, local := PopCounting(q);
    var queued := LiveCount(q);
    afterPop := queued + 1;

    q, local := PopCounting(q);
    q := EmplaceCounting(q, 10, 1);
    queued := LiveCount(q);
    afterRefill := queued + 1;

    // leaving the scope destroys the local first, then the queue and its items
    var destroyed := Teardown(q);
    leftAfterTeardown := afterRefill - 1 - |destroyed|;
  }

  /** Emplace `first, first + 1, ..., first + n - 1`, one at a time, into a queue with room for them. */
  method EmplaceCounting(q0: Queue<nat>, first: nat, n: nat) returns (q: Queue<nat>)
    requires Valid(q0) && Size(q0) + n <= q0.capacity
    ensures Valid(q) && q.capacity == q0.capacity && Size(q) == Size(q0) + n
  {
    q := q0;
    var i := 0;
    while i < n
      invariant 0 <= i <= n
      invariant Valid(q) && q.capacity == q0.capacity
      invariant Size(q) == Size(q0) + i
    {
      q := Emplace(q, first + i);
      i := i + 1;
    }
  }

  /** Pop the oldest item, which leaves one item fewer in the queue. */
  method PopCounting(q0: Queue<nat>) returns (q: Queue<nat>, item: nat)
    requires Valid(q0) && Size(q0) > 0
    ensures Valid(q) && q.capacity == q0.capacity && Size(q) == Size(q0) - 1
    ensures [item] + Contents(q) == Contents(q0)
  {
    var p := Pop(q0);
    q, item := p.queue, p.item;
  }

  /** The live items of the queue: those constructed in its slots. */
  method LiveCount<T>(q: Queue<T>) returns (n: nat)
    requires Valid(q)
    ensures n == |Constructed(q.slots)| == Size(q)
  {
    LiveItems(q);
    n := |Constructed(q.slots)|;
  }
}

=== FILE: slots.dfy ===
/**
 A slot of the ring: a turn counter and a storage cell that holds at most one
 item. The turn encodes whose move it is: `2 * g` means the writer of
 generation `g` may construct an item, `2 * g + 1` means the reader of
 generation `g` may move it out. Storage is `None` while unconstructed.
 */
module Slots {
  import opened Wrappers

  datatype Slot<T> = Slot(turn: nat, val: Option<T>) {

    /** Construct an item in place; the storage must not hold one already. */
    function Construct(x: T): (s: Slot<T>)
      requires val.None?
      ensures s.val == Some(x) && s.turn == turn
    {
      this.(val := Some(x))
    }

    /** The item a reader moves out of the storage. */
    function Move(): (x: T)
      requires val.Some?
      ensures val == Some(x)
    {
      val.value
    }

    /** Destroy the item held in the storage, leaving the cell unconstructed. */
    function Destroy(): (s: Slot<T>)
      requires val.Some?
      ensures s.val.None? && s.turn == turn
    {
      this.(val := None)
    }

    /** Hand the slot on by storing a new turn value. */
    function Release(t: nat): (s: Slot<T>)
      ensures s.turn == t && s.val == val
    {
      this.(turn := t)
    }

    /** The turn parity is an accurate record of whether an item is constructed. */
    predicate Consistent() {
      turn % 2 == 1 <==> val.Some?
    }

    /**
     The slot's destructor: it destroys the stored item exactly when the turn
     is odd; the result lists the items it destroyed.
     */
    function Finalize(): (destroyed: seq<T>)
      requires Consistent()
      ensures |destroyed| <= 1
      ensures |destroyed| == 1 <==> turn % 2 == 1
      ensures |destroyed| == 1 ==> val == Some(destroyed[0])
      ensures destroyed == Held(this)
    {
      if turn % 2 == 1 then [val.value] else []
    }
  }

  /**
   The writer of generation `g` finds a consistent slot at turn `2 * g` with
   its storage empty; constructing its item and publishing `2 * g + 1`
   leaves the slot consistent, holding exactly that item, one turn on.
   */
  lemma WriterStep<T>(s: Slot<T>, g: nat, x: T)
    requires s.Consistent() && s.turn == 2 * g
    ensures s.val.None?
    ensures var s' := s.Construct(x).Release(2 * g + 1);
            s'.Consistent() && Held(s') == [x] && s'.turn == s.turn + 1
  {
  }

  /**
   The reader of generation `g` finds a consistent slot at turn `2 * g + 1`
   holding an item, which is the one it moves out; destroying it and
   publishing `2 * g + 2` leaves the slot consistent, empty, one turn on.
   */
  lemma ReaderStep<T>(s: Slot<T>, g: nat)
    requires s.Consistent() && s.turn == 2 * g + 1
    ensures s.val.Some?
    ensures Held(s) == [s.Move()]
    ensures var s' := s.Destroy().Release(2 * g + 2);
            s'.Consistent() && Held(s') == [] && s'.turn == s.turn + 1
  {
  }

  /**
   One step of the protocol on a slot array: slot `k` moves on by exactly one
   turn and every other slot is left as it was.
   */
  ghost predicate AdvancedOnce<T>(before: seq<Slot<T>>, after: seq<Slot<T>>, k: nat) {
    && |after| == |before|
    && k < |before|
    && after[k].turn == before[k].turn + 1
    && forall j | 0 <= j < |before| && j != k :: after[j] == before[j]
  }

  /** No slot of `after` is at an earlier turn than the same slot of `before`. */
  ghost predicate TurnsNotBehind<T>(before: seq<Slot<T>>, after: seq<Slot<T>>) {
    && |after| == |before|
    && forall j | 0 <= j < |before| :: before[j].turn <= after[j].turn
  }

  /** Turns not going back is transitive. */
  lemma TurnsNotBehindTrans<T>(a: seq<Slot<T>>, b: seq<Slot<T>>, c: seq<Slot<T>>)
    requires TurnsNotBehind(a, b) && TurnsNotBehind(b, c)
    ensures TurnsNotBehind(a, c)
  {
  }

  /** What a slot's storage holds: its item, or nothing. */
  function Held<T>(s: Slot<T>): seq<T> {
    if s.val.Some? then [s.val.value] else []
  }

  /** The items constructed in the first `n` slots, in slot order. */
  function ConstructedUpTo<T>(slots: seq<Slot<T>>, n: nat): seq<T>
    requires n <= |slots|
  {
    if n == 0 then [] else ConstructedUpTo(slots, n - 1) + Held(slots[n - 1])
  }

  /** The items constructed in `slots`, in slot order. */
  function Constructed<T>(slots: seq<Slot<T>>): seq<T> {
    ConstructedUpTo(slots, |slots|)
  }

  /** The items of `s` from last to first. */
  function Reverse<T>(s: seq<T>): seq<T> {
    seq(|s|, i requires 0 <= i < |s| => s[|s| - 1 - i])
  }

  /** Reversing a sequence extended by at most one item puts that item first. */
  lemma ReverseSnoc<T>(a: seq<T>, h: seq<T>)
    requires |h| <= 1
    ensures Reverse(a + h) == h + Reverse(a)
  {
    forall i | 0 <= i < |a| + |h|
      ensures Reverse(a + h)[i] == (h + Reverse(a))[i]
    {
      if i >= |h| {
        assert Reverse(a + h)[i] == a[|a| - 1 - (i - |h|)];
      }
    }
  }

  /** Reversing keeps every item and its number of occurrences. */
  lemma {:induction false} ReversePermutes<T>(s: seq<T>)
    ensures multiset(Reverse(s)) == multiset(s)
  {
    if |s| > 0 {
      var a, x := s[..|s| - 1], s[|s| - 1];
      assert s == a + [x];
      ReverseSnoc(a, [x]);
      ReversePermutes(a);
    }
  }

  /** With every storage cell unconstructed, there is nothing to destroy. */
  lemma {:induction false} ConstructedNone<T>(slots: seq<Slot<T>>, n: nat)
    requires n <= |slots|
    requires forall j | 0 <= j < n :: slots[j].val.None?
    ensures ConstructedUpTo(slots, n) == []
  {
    if n > 0 {
      ConstructedNone(slots, n - 1);
    }
  }

  /**
   Emptying the storage of one slot (whatever happens to its turn) removes
   exactly that slot's item from the constructed items.
   */
  lemma {:induction false} ConstructedClear<T>(slots: seq<Slot<T>>, slots': seq<Slot<T>>, k: nat, n: nat)
    requires |slots'| == |slots|
    requires k < n <= |slots|
    requires slots[k].val.Some? && slots'[k].val.None?
    requires forall j | 0 <= j < |slots| && j != k :: slots'[j].val == slots[j].val
    ensures multiset(ConstructedUpTo(slots, n))
            == multiset(ConstructedUpTo(slots', n)) + multiset{slots[k].val.value}
  {
    var before, after := ConstructedUpTo(slots, n - 1), ConstructedUpTo(slots', n - 1);
    if k == n - 1 {
      ConstructedAgree(slots, slots', n - 1);
      assert ConstructedUpTo(slots, n) == after + [slots[k].val.value];
    } else {
      ConstructedClear(slots, slots', k, n - 1);
      assert Held(slots'[n - 1]) == Held(slots[n - 1]);
      MultisetAppend(before, after, Held(slots[n - 1]), slots[k].val.value);
    }
  }

  /** Appending the same items to both sides keeps one extra occurrence of `v`. */
  lemma MultisetAppend<T>(a: seq<T>, b: seq<T>, h: seq<T>, v: T)
    requires multiset(a) == multiset(b) + multiset{v}
    ensures multiset(a + h) == multiset(b + h) + multiset{v}
  {
    assert multiset(a + h) == multiset(a) + multiset(h);
    assert multiset(b + h) == multiset(b) + multiset(h);
  }

  /** Only the storage cells matter for the constructed items, not the turns. */
  lemma {:induction false} ConstructedAgree<T>(a: seq<Slot<T>>, b: seq<Slot<T>>, n: nat)
    requires n <= |a| && n <= |b|
    requires forall j | 0 <= j < n :: a[j].val == b[j].val
    ensures ConstructedUpTo(a, n) == ConstructedUpTo(b, n)
  {
    if n > 0 {
      ConstructedAgree(a, b, n - 1);
      assert Held(a[n - 1]) == Held(b[n - 1]);
    }
  }
}

=== FILE: wrappers.dfy ===
/** Optional slot contents and construction results. */
module Wrappers {

  /** An optional value: the contents of a slot's storage cell. */
  datatype Option<+T> = None | Some(value: T)

  /** Either a value or the error that prevented producing it. */
  datatype Result<+R, +E> = Success(value: R) | Failure(error: E)
}
